=== FILE: README.md ===
# a11y-agent core in Dafny

The a11y-agent reads a React component and does the following:

1. It formats the component with Prettier.
2. It collects the ESLint `jsx-a11y/` messages as issue lines.
3. It asks a language model to group related issues.
4. It asks the model for one fix per group.
5. It overwrites the component with the `<file>` block of each reply.

This project models the text and list handling between those external
calls and proves what it does:

- `wrappers.dfy` (`Wrappers`): the `Option` type.
- `py_strings.dfy` (`PyStrings`): the Python `str` operations the agent uses, with Python's meaning:
  - `in`, `split`, `join`, `strip`, `startswith` and `replace`;
  - `str()` of an integer.
- `tools.dfy` (`Tools`): the issue collector `get_a11y_issues`.
  - The linter report is an already-parsed value with explicit absent and null fields.
  - The loop `GetA11yIssues` is proved equal to the function `A11yIssues`, and the properties are proved about that function.
- `agent.dfy` (`Agent`):
  - `extract_tag_content`.
  - Fence stripping and index decoding of `group_issues_intelligently`, with its singleton fallback.
  - The backup path.
  - `run`, over a `Disk` object that holds the files and the ordered list of writes.

The model's replies are opaque strings. Prettier, ESLint and `json.loads` are function parameters:

- `prettier`: the formatted text, or None when Prettier fails.
- `lint`: the parsed ESLint result.
- `parse`: the integer lists that iterating the decoded JSON value yields, or None where decoding fails or the iteration, `i-1` or the indexing raises (a float number such as `1.0` raises only at the indexing).

The reply to the `i`-th fix request is `fixReply(i)`.

## Model

| member | source | states |
|---|---|---|
| PyStrings.FindFrom | agent/agent.py:53 | The index reported is the first at or after `from` where the pattern occurs. None means it occurs nowhere from `from` on. |
| PyStrings.ContainsIffOccurs | agent/agent.py:78 | `pat in s` holds exactly when `pat` occurs at some index of `s`. |
| PyStrings.Split | agent/agent.py:79 | `s.split(sep)`. There is always at least one piece. There is exactly one piece when `sep` does not occur. No piece contains `sep`. Joining the pieces with `sep` gives `s` back. |
| PyStrings.SplitJoinRoundTrip | agent/agent.py:79 | Splitting `sep.join(parts)` gives the parts back for at least one part, when no part contains `sep` and the separator's first character occurs nowhere else in it (as for the fence and the tags). |
| PyStrings.Join | agent/agent.py:109 | `sep.join(parts)` of a non-empty list is as long as the parts plus one separator between each two. It starts with the first part. |
| PyStrings.Strip | agent/agent.py:79 | `s.strip()`. The result has no whitespace at either end. It is `s` with whitespace removed from the front and the back. |
| PyStrings.StripUnique | agent/agent.py:79 | Only one string has no edge whitespace and is obtained by trimming whitespace from `s`: `s.strip()`. |
| PyStrings.StripKeepsAbsence | agent/agent.py:79 | Stripping never creates an occurrence of a substring. |
| PyStrings.ReplaceAll | agent/agent.py:90 | `s.replace(t, r)` leaves a text without `t` unchanged. Otherwise it keeps the text before the first `t` and puts `r` right after it. |
| PyStrings.ReplaceIsJoinOfSplit | agent/agent.py:90 | `s.replace(t, r)` equals `r.join(s.split(t))`. |
| PyStrings.ReplaceGrows | agent/agent.py:90 | Replacing with a longer string never shortens the text. It lengthens it exactly when the target occurs. |
| PyStrings.Decimal | agent/tools.py:252 | `str(n)` is non-empty and contains no space. It starts with `-` exactly when `n` is negative. After the sign come only digits, with no leading zero, and they read back as the magnitude of `n`. |
| PyStrings.DigitsUnique | agent/tools.py:252 | A digit string without a leading zero that reads back as `n` is the digits of `n`, so `str(n)` is fixed by the properties above. |
| Agent.ExtractTagContent | agent/agent.py:74-80 | The result is None exactly when `<tag>` or `</tag>` is missing from the text. Otherwise the result contains neither tag and has no edge whitespace. |
| Agent.ExtractShape | agent/agent.py:76-79 | A found block is the stripped text `m` after the first `<tag>`. `m` contains neither tag. What follows `m` is empty or begins with `<tag>` or `</tag>`, so `m` is cut at whichever comes first. |
| Agent.ExtractRoundTrip | agent/agent.py:76-79 | Extracting from `p + <tag> + s + </tag> + q` gives back `s`. This needs a clean `s` that holds neither tag, and a `p` without `<tag>`. `q` can be anything. |
| Agent.TagFacts | agent/agent.py:76-77 | For a tag name without `<` or `/`, `<` occurs only at position 0 of `<tag>` and of `</tag>`, and the two differ at position 1. |
| Agent.StripFence | agent/agent.py:50-57 | The text given to the parser has no edge whitespace. Without a fence it is the stripped reply. With a fence it contains no fence. |
| Agent.DropJsonTag | agent/agent.py:55-56 | The result is a suffix of the segment. It is four characters shorter when the segment starts with `json`, and the whole segment otherwise. |
| Agent.FenceShape | agent/agent.py:50-57 | Every reply with a fence, whatever text precedes it and whether or not the block is closed, strips to `p` + fence + `seg` + `q`. Here `p` holds no fence, `seg` holds none either, and `q` is empty or starts with a fence. The parser gets `seg` with any leading `json` dropped, then stripped. |
| Agent.FencedReply | agent/agent.py:50-57 | Take a reply that strips to `p` + fence + `mid` + fence + `q`, with no backtick in `p` or `mid`. The parser gets `mid` with any leading `json` dropped, then stripped. Text before and after the block does not matter. |
| Agent.FenceRoundTrip | agent/agent.py:49-57 | A bare JSON text and the same text in a fenced block (with or without the `json` tag) give the parser the same text. |
| Agent.IssueNumbered | agent/agent.py:64 | Python's `issues[n-1]` is defined exactly for `1 - len(issues) <= n <= len(issues)`, and it then selects an issue of the list. |
| Agent.Listing | agent/agent.py:28 | The prompt lists one line per issue, and line `i` begins with the decimal number `i+1` and a dot. |
| Agent.ListingNumbersResolve | agent/agent.py:28 | The number shown on line `i` of the prompt reads back as `i+1` and selects the issue on that line. The number 0 selects the last issue. |
| Agent.ResolveGroup | agent/agent.py:64 | `[issues[i-1] for i in group]` has one issue per number, in order, each the one Python's indexing selects. |
| Agent.Singletons | agent/agent.py:71 | The fallback has one group per issue, and group `i` is `[issues[i]]`. |
| Agent.Resolved | agent/agent.py:62-65 | There is one group per grouping, of the same length. Element `k` is the issue that number `k` selects. |
| Agent.DecodeGroupings | agent/agent.py:62-67 | The decoding loop succeeds exactly when every number selects an issue. Its groups are then `Resolved`. |
| Agent.GroupIssuesIntelligently | agent/agent.py:49-71 | The grouping equals `IssueGroups`. A parse failure or an index error falls back to singletons. |
| Agent.SingletonsFlatten | agent/agent.py:69-71 | The fallback has one group `[issue]` per issue. Its concatenation is the issue list in order. |
| Agent.IssueGroups | agent/agent.py:49-71 | A failed parse or an unresolvable number gives the singletons. A resolvable parse gives `Resolved` of the parsed groupings: one group per grouping, with the issues its numbers select. Every group element is an issue of the list. |
| Agent.FlattenResolved | agent/agent.py:62-65 | Decoding each group and concatenating gives the same result as decoding the concatenated numbers. |
| Agent.ResolveRespectsMultiset | agent/agent.py:64 | Rearranging the numbers only rearranges the decoded issues. |
| Agent.PartitionCoversEveryIssue | agent/agent.py:59-67 | When the reply uses each number 1..n exactly once, the decoded groups together hold each issue exactly as often as the list does. |
| Agent.BackupPath | agent/agent.py:90 | The backup path differs from the file path exactly when the path contains `.tsx` or `.jsx`. |
| Agent.BackupOfTsx | agent/agent.py:90 | `Name.tsx` is backed up as `Name_old.tsx`, for a `Name` that contains neither `.tsx` nor `.jsx`. |
| Agent.BackupOfJsx | agent/agent.py:90 | `Name.jsx` is backed up as `Name_old.jsx`, for a `Name` that contains neither `.tsx` nor `.jsx`. |
| Agent.Disk.Write | agent/agent.py:91-92 | Writing a file sets its content and appends the write to the write log. |
| Agent.FixedFile | agent/agent.py:115-117 | A reply yields a fix exactly when its `<file>` block is present and non-empty, and the fix is that block. |
| Agent.Applied | agent/agent.py:115-119 | After one reply the file is either unchanged or the reply's fix. A non-empty file never becomes empty. |
| Agent.AfterFixes | agent/agent.py:108-119 | After the pass the file is the start text or the fix of one of the replies. A non-empty start never becomes empty. |
| Agent.ApplyFix | agent/agent.py:115-119 | The file changes to the `<file>` block only when that block is present and non-empty, and only then is it written. No other file changes. |
| Agent.FixGroups | agent/agent.py:108-119 | There is one request per group, in group order. Each request carries the file as the earlier replies left it, and the group joined by newlines. The file ends as `AfterFixes` of all replies. The pass appends exactly `FixWrites` of the replies to the write log. |
| Agent.FixWrites | agent/agent.py:117-119 | The writes of a pass: one per reply with a non-empty `<file>` block, in reply order, each to the component file and never empty. |
| Agent.FixWritesNone | agent/agent.py:117-119 | A pass writes nothing exactly when no reply has a non-empty `<file>` block. |
| Agent.FixWritesFinal | agent/agent.py:117-119 | The last write of a pass is the content the file ends with. A pass without writes leaves the formatted text. |
| Agent.LastFixWins | agent/agent.py:117-119 | After the pass, the file holds the last non-empty `<file>` block among the replies. |
| Agent.NoFixKeepsStart | agent/agent.py:117-119 | When no reply has a non-empty `<file>` block, the file keeps the formatted text. |
| Agent.Run | agent/agent.py:83-119 | An unreadable file means no writes. Otherwise the first write is the backup of the original. No issues: the result is the formatted text, with no requests and no other write. Otherwise: the write log gains the backup, the formatted text and then exactly `FixWrites` of the replies. There is one request per group of `IssueGroups`, and the file ends as `AfterFixes` of the replies. A backup at a different path keeps the original. |
| Tools.RuleIdDecides | agent/tools.py:250-252 | A missing rule id reads as `""`, and the message is dropped. A null one raises. Any id other than a `jsx-a11y/` one is dropped. An accessibility message raises exactly when `line`, `column` or `message` is missing. |
| Tools.IssueLine | agent/tools.py:252 | An issue line starts with `line:column  error  ` and ends with two spaces and the rule id. |
| Tools.Kept | agent/tools.py:249-253 | There are never more issue lines than messages. |
| Tools.FirstFileMessages | agent/tools.py:244-246 | Reading the messages raises exactly when the first file's `messages` is null. Any message read comes from the first file. |
| Tools.A11yIssues | agent/tools.py:217-261 | A formatter failure or a linter crash gives `([], "")`. A non-empty issue list always comes with the formatted text. When the first file's messages can be read, the result is their `Kept` issue lines with the formatted text if no message raises, and `([], "")` otherwise. A null `messages` list raises when iterated, and also gives `([], "")`. |
| Tools.GetA11yIssues | agent/tools.py:239-261 | The filter loop, with its early exit on the first message that raises, returns exactly `A11yIssues`. |
| Tools.KeptConcat | agent/tools.py:249-253 | The issues of two message runs back to back are the issues of the first run followed by those of the second, so the linter's order is kept. |
| Tools.KeptFromMessages | agent/tools.py:249-253 | Every issue is the issue line of some `jsx-a11y/` message. |
| Tools.KeptCoversA11y | agent/tools.py:250-253 | Every `jsx-a11y/` message produces its issue line. |
| Tools.IssueLineLastToken | agent/tools.py:252 | A rule id without spaces is the last token of its issue line. |
| Tools.NothingReportedKeepsFormatted | agent/tools.py:240-244 | Empty linter output, or an empty result list, gives no issues together with the formatted text. |
| Tools.SuccessKeepsFormatted | agent/tools.py:244-257 | When nothing raises, the formatted text is returned. Only the first file entry matters. |
| Tools.OneRaisingMessageEmptiesAll | agent/tools.py:250-261 | One message that raises gives exactly `([], "")`, even when issues were collected before it. |

## Left out

- The Anthropic client, its prompts and `suggest_a11y_fix`. A reply is an input string, and the fix replies are a function of the request number.
- Prettier and ESLint run as subprocesses, so they are parameters. File reads and writes go through the `Disk` object's `files` map. The `print` calls are not modelled.
- A Prettier failure inside `suggest_a11y_fix` escapes `run` as an exception; the model does not cover it.
- Agent.FixRequest records the file as it is on disk. `suggest_a11y_fix` formats it again before putting it into its prompt, and that step is not modelled.
- `json.loads` and the iteration over its result are one parameter, `parse`. It yields the integer lists that iterating the decoded value produces:
  - `{}` and `""` give no groups at all, so `run` makes no fix request;
  - `[""]` and `[{}]` give one empty group;
  - `true` and `false` count as 1 and 0.

  It yields None where decoding fails or iterating, `i-1` or the indexing raises, e.g. on a number, `null` or a string element, or a float number (which raises only at `issues[0.0]`). How a particular JSON text maps to these lists is not modelled.
- Linter results whose top level is not a list, entries that are not objects, and non-string rule ids are not modelled.
- Agent.Run: the prompt that `group_issues_intelligently` sends includes the file read back from disk. That prompt is not modelled; only the reply matters for the result.
- ESLint reports line numbers for the file on disk, which is the unformatted original. The fixes are requested against the formatted text. The model keeps this as the source has it.
- The hard-coded call at the end of `agent/agent.py` and the whole of `server/server.py` are process control and are not part of this model.
- The `<explanation>` block that `run` prints is not modelled, because it only feeds `print`.

=== FILE: agent.dfy ===
/**
  The driver of agent/agent.py: pulling tagged blocks out of a model reply
  (`extract_tag_content`), decoding the model's grouping of issue numbers
  (`group_issues_intelligently`), naming the backup file, and the single
  fix pass of `run`, which asks for one fix per group and overwrites the
  component file with each non-empty `<file>` block it gets back.

  Model replies, the JSON parser, the formatter and the linter are inputs:
  replies are plain strings, the others are functions.
 */
module Agent {
  import opened Wrappers
  import opened PyStrings
  import Tools

  // ---------------------------------------------------------------------
  // Tagged blocks in a reply

  function StartTag(tag: string): string { "<" + tag + ">" }

  function EndTag(tag: string): string { "</" + tag + ">" }

  /**
    `extract_tag_content(text, tag)`: None unless both `<tag>` and `</tag>`
    occur; otherwise the text after the first `<tag>`, cut at the next
    `<tag>` (`split(start_tag)[1]`) and then at the first `</tag>`
    (`split(end_tag)[0]`), stripped.
   */
  function ExtractTagContent(text: string, tag: string): (r: Option<string>)
    ensures r.None? <==> !Contains(text, StartTag(tag)) || !Contains(text, EndTag(tag))
    ensures r.Some? ==> NoEdgeSpace(r.value)
    ensures r.Some? ==> !Contains(r.value, StartTag(tag)) && !Contains(r.value, EndTag(tag))
  {
    var st, et := StartTag(tag), EndTag(tag);
    if Contains(text, st) && Contains(text, et) then
      var after := Split(text, st)[1];
      var inner := Split(after, et)[0];
      SplitHeadIsPrefix(after, et);
      SliceKeepsAbsence(after, st, 0, |inner|);
      assert after[0..|inner|] == inner;
      StripKeepsAbsence(inner, st);
      StripKeepsAbsence(inner, et);
      Some(Strip(inner))
    else
      None
  }

  /** A tag name such as `file` or `explanation`: no `<` and no `/` in it. */
  predicate PlainTag(tag: string) {
    forall i :: 0 <= i < |tag| ==> tag[i] != '<' && tag[i] != '/'
  }

  /**
    What the round trip needs of an opening and a closing tag: both start
    with the same character, which occurs nowhere else in either, and they
    differ in their second character.
   */
  predicate TagPair(st: string, et: string) {
    HeadUnique(st) && HeadUnique(et) && |st| >= 2 && |et| >= 2
    && st[0] == et[0] && st[1] != et[1]
  }

  lemma TagFacts(tag: string)
    requires PlainTag(tag)
    ensures TagPair(StartTag(tag), EndTag(tag))
  {
  }

  /** With a prefix free of `st`, the second piece of the split is the first piece of what follows `st`. */
  lemma OpeningAfterPrefix(p: string, st: string, rest: string)
    requires HeadUnique(st) && !Contains(p, st)
    ensures Contains(p + st + rest, st)
    ensures Split(p + st + rest, st)[1] == Split(rest, st)[0]
  {
    FirstOccurrenceAfter(p, st, rest);
    SplitAfterFirst(p, st, rest);
  }

  /** No opening tag starts inside `s + et` when `s` holds none. */
  lemma NoOpeningBeforeClosingEnds(s: string, q: string, st: string, et: string)
    requires TagPair(st, et) && !Contains(s, st)
    ensures forall k :: 0 <= k < |s| + |et| ==> !OccursAt(s + et + q, st, k)
  {
    var rest := s + et + q;
    assert rest == s + (et + q);
    NoSpanning(s, et + q, st);
    forall k | |s| <= k < |s| + |et|
      ensures !OccursAt(rest, st, k)
    {
      if k == |s| {
        assert rest[k + 1] == et[1];
      } else {
        assert rest[k] == et[k - |s|];
      }
    }
  }

  /** The piece after the first opening tag runs at least past the closing tag that follows `s`. */
  lemma PieceReachesClosing(s: string, q: string, st: string, et: string) returns (tail: string)
    requires TagPair(st, et) && !Contains(s, st)
    ensures Split(s + et + q, st)[0] == s + et + tail
  {
    var rest := s + et + q;
    NoOpeningBeforeClosingEnds(s, q, st, et);
    var m := |s| + |et|;
    SplitHeadKeeps(rest, st, m);
    var head := Split(rest, st)[0];
    tail := head[m..];
    assert head == head[..m] + tail;
    assert rest[..m] == s + et;
  }

  /** Cutting `s + et + tail` at the first `et` gives `s` back when `s` holds none. */
  lemma ClosingCut(s: string, tail: string, et: string)
    requires HeadUnique(et) && !Contains(s, et)
    ensures Split(s + et + tail, et)[0] == s
  {
    FirstOccurrenceAfter(s, et, tail);
    SplitAfterFirst(s, et, tail);
  }

  /** The two cuts of the round trip, for any pair of tags. */
  lemma CutsRoundTrip(p: string, s: string, q: string, st: string, et: string)
    requires TagPair(st, et) && !Contains(p, st) && !Contains(s, st) && !Contains(s, et)
    ensures Contains(p + st + s + et + q, st) && Contains(p + st + s + et + q, et)
    ensures Split(Split(p + st + s + et + q, st)[1], et)[0] == s
  {
    var rest := s + et + q;
    assert p + st + s + et + q == p + st + rest;
    OpeningAfterPrefix(p, st, rest);
    var tail := PieceReachesClosing(s, q, st, et);
    ClosingCut(s, tail, et);
    ClosingPresent(p + st, s, et, q);
  }

  /** A closing tag placed after `a + s` is present in the whole text. */
  lemma ClosingPresent(a: string, s: string, et: string, q: string)
    ensures Contains(a + s + et + q, et)
  {
    var text := a + s + et + q;
    assert text[|a| + |s|..|a| + |s| + |et|] == et;
    PresentSomewhere(text, et, |a| + |s|);
  }

  /**
    Round trip: wrapping a clean block in `<tag>` and `</tag>` behind a
    prefix free of `<tag>` and extracting it gives the block back, whatever
    follows the closing tag.
   */
  lemma ExtractRoundTrip(p: string, s: string, q: string, tag: string)
    requires PlainTag(tag)
    requires !Contains(p, StartTag(tag))
    requires !Contains(s, StartTag(tag)) && !Contains(s, EndTag(tag)) && NoEdgeSpace(s)
    ensures ExtractTagContent(p + StartTag(tag) + s + EndTag(tag) + q, tag) == Some(s)
  {
    TagFacts(tag);
    CutsRoundTrip(p, s, q, StartTag(tag), EndTag(tag));
    StripClean(s);
  }

  /** What is left after two cuts begins with one of the two separators, if anything is left. */
  lemma LeftoverStarts(q2: string, q1: string, st: string, et: string)
    requires q2 == [] || StartsWith(q2, et)
    requires q1 == [] || StartsWith(q1, st)
    ensures q2 + q1 == [] || StartsWith(q2 + q1, st) || StartsWith(q2 + q1, et)
  {
  }

  /** Cutting `rest` at the next `st` and then at the first `et`: what is left over begins with one of them. */
  lemma TwoCuts(rest: string, st: string, et: string) returns (m: string, q: string)
    requires |st| > 0 && |et| > 0
    ensures rest == m + q
    ensures m == Split(Split(rest, st)[0], et)[0]
    ensures !Contains(m, st) && !Contains(m, et)
    ensures q == [] || StartsWith(q, st) || StartsWith(q, et)
  {
    hide *;
    var after := Split(rest, st)[0];
    var q1 := SplitHeadRest(rest, st);
    m := Split(after, et)[0];
    var q2 := SplitHeadRest(after, et);
    q := q2 + q1;
    assert rest == m + q;
    PrefixKeepsAbsence(m, q2, st);
    LeftoverStarts(q2, q1, st, et);
  }

  /** The two cuts of `extract_tag_content`, for any opening and closing separators. */
  lemma CutShape(text: string, st: string, et: string) returns (p: string, m: string, q: string)
    requires |st| > 0 && |et| > 0 && Contains(text, st)
    ensures text == p + st + m + q && !Contains(p, st)
    ensures m == Split(Split(text, st)[1], et)[0]
    ensures !Contains(m, st) && !Contains(m, et)
    ensures q == [] || StartsWith(q, st) || StartsWith(q, et)
  {
    hide *;
    var rest;
    p, rest := SplitAtFirst(text, st);
    m, q := TwoCuts(rest, st, et);
  }

  /**
    The shape of every extracted block: the text is `p + <tag> + m + q`
    where `p` holds no `<tag>` (so this is the first one), `m` holds neither
    tag, the result is `m` stripped, and `q` is empty or starts with the tag
    that cut `m` off.
   */
  lemma ExtractShape(text: string, tag: string) returns (p: string, m: string, q: string)
    requires ExtractTagContent(text, tag).Some?
    ensures text == p + StartTag(tag) + m + q
    ensures !Contains(p, StartTag(tag))
    ensures !Contains(m, StartTag(tag)) && !Contains(m, EndTag(tag))
    ensures ExtractTagContent(text, tag) == Some(Strip(m))
    ensures q == [] || StartsWith(q, StartTag(tag)) || StartsWith(q, EndTag(tag))
  {
    p, m, q := CutShape(text, StartTag(tag), EndTag(tag));
  }

  // ---------------------------------------------------------------------
  // Decoding the grouping reply

  const Fence := "```"

  /** `segment[4:]` when the segment starts with the `json` language tag, else the segment. */
  function DropJsonTag(segment: string): (r: string)
    ensures |r| <= |segment| && r == segment[|segment| - |r|..]
    ensures |r| == if StartsWith(segment, "json") then |segment| - 4 else |segment|
  {
    if StartsWith(segment, "json") then segment[4..] else segment
  }

  /**
    The text `group_issues_intelligently` hands to the JSON parser: the
    reply stripped; if it holds a code fence, only the part between the
    first two fences, without a leading `json`, stripped again.
   */
  function StripFence(reply: string): (r: string)
    ensures NoEdgeSpace(r)
    ensures !Contains(Strip(reply), Fence) ==> r == Strip(reply)
    ensures Contains(Strip(reply), Fence) ==> !Contains(r, Fence)
  {
    var t := Strip(reply);
    if Contains(t, Fence) then
      var segment := Split(t, Fence)[1];
      var body := DropJsonTag(segment);
      SliceKeepsAbsence(segment, Fence, |segment| - |body|, |segment|);
      assert segment[|segment| - |body|..|segment|] == body;
      StripKeepsAbsence(body, Fence);
      Strip(body)
    else
      StripClean(t);
      t
  }

  /**
    Every fenced reply, whatever its preamble and whether or not the block is
    closed: the parser gets the text from the first fence up to the next
    fence or the end, without a leading `json`, stripped.
   */
  lemma FenceShape(reply: string) returns (p: string, seg: string, q: string)
    requires Contains(Strip(reply), Fence)
    ensures Strip(reply) == p + Fence + seg + q && !Contains(p, Fence)
    ensures !Contains(seg, Fence) && (q == [] || StartsWith(q, Fence))
    ensures StripFence(reply) == Strip(DropJsonTag(seg))
  {
    var t := Strip(reply);
    var rest;
    p, rest := SplitAtFirst(t, Fence);
    seg := Split(rest, Fence)[0];
    q := SplitHeadRest(rest, Fence);
    assert t == p + Fence + seg + q;
  }

  /**
    A reply with a fenced block anywhere in it, with text before and after:
    the parser gets the text between the first two fences, without a leading
    `json`, stripped.
   */
  lemma FencedReply(reply: string, p: string, mid: string, q: string)
    requires Strip(reply) == p + Fence + mid + Fence + q
    requires forall i :: 0 <= i < |p| ==> p[i] != '`'
    requires forall i :: 0 <= i < |mid| ==> mid[i] != '`'
    ensures StripFence(reply) == Strip(DropJsonTag(mid))
  {
    assert Strip(reply) == p + Fence + (mid + Fence + q);
    SplitPastFree(p, Fence, mid + Fence + q);
    SplitPastFree(mid, Fence, q);
  }

  lemma DropJsonTagOf(mid: string, padded: string)
    requires mid == padded || mid == "json" + padded
    requires |padded| > 0 && padded[0] == '\n'
    ensures DropJsonTag(mid) == padded
  {
  }

  /** The bare text, and the same text padded with newlines, strip to the text. */
  lemma PaddedStrips(body: string)
    requires NoEdgeSpace(body)
    ensures Strip(body) == body
    ensures Strip("\n" + body + "\n") == body
  {
    StripClean(body);
    var padded := "\n" + body + "\n";
    assert padded[1..1 + |body|] == body;
    assert SpaceBetween(padded, 0, 1) && SpaceBetween(padded, 1 + |body|, |padded|);
    StripUnique(padded, body);
  }

  /**
    The reply shapes the fence handling is for: a bare JSON text, and the
    same text in a fenced block with or without the `json` language tag, all
    decode to the same text.
   */
  lemma FenceRoundTrip(body: string)
    requires NoEdgeSpace(body)
    requires forall i :: 0 <= i < |body| ==> body[i] != '`'
    ensures StripFence(body) == body
    ensures StripFence(Fence + "json\n" + body + "\n" + Fence) == body
    ensures StripFence(Fence + "\n" + body + "\n" + Fence) == body
  {
    MissingChar(body, Fence, 0);
    PaddedStrips(body);
    FencedPadded(body, "json\n");
    FencedPadded(body, "\n");
  }

  /** A block on lines of its own between two fences, after an optional `json` tag. */
  lemma FencedPadded(body: string, opening: string)
    requires NoEdgeSpace(body)
    requires forall i :: 0 <= i < |body| ==> body[i] != '`'
    requires opening == "json\n" || opening == "\n"
    ensures StripFence(Fence + opening + body + "\n" + Fence) == body
  {
    hide *;
    PaddedStrips(body);
    var padded := "\n" + body + "\n";
    var mid := opening + body + "\n";
    if opening == "json\n" {
      assert opening == "json" + "\n";
      assert mid == "json" + padded;
    } else {
      assert mid == padded;
    }
    Fenced(mid);
    DropJsonTagOf(mid, padded);
    assert Fence + opening + body + "\n" + Fence == Fence + mid + Fence;
  }

  /** A reply that is exactly one fenced block around a backtick-free text. */
  lemma Fenced(mid: string)
    requires forall i :: 0 <= i < |mid| ==> mid[i] != '`'
    ensures StripFence(Fence + mid + Fence) == Strip(DropJsonTag(mid))
  {
    var reply := Fence + mid + Fence;
    assert reply[0] == '`' && reply[|reply| - 1] == '`';
    StripClean(reply);
    assert reply == [] + Fence + mid + Fence + [];
    FencedReply(reply, [], mid, []);
  }

  /**
    `issues[n - 1]` with Python's list indexing: 0 and negative numbers
    count from the end; None where Python raises `IndexError`.
   */
  function IssueNumbered(issues: seq<string>, n: int): (r: Option<string>)
    ensures r.Some? <==> 1 - |issues| <= n <= |issues|
    ensures r.Some? ==> r.value in issues
  {
    if 1 <= n <= |issues| then Some(issues[n - 1])
    else if 1 - |issues| <= n <= 0 then Some(issues[|issues| + n - 1])
    else None
  }

  /** The numbered listing of the grouping prompt: line `i` reads `i+1. issue`. */
  function Listing(issues: seq<string>): (r: seq<string>)
    ensures |r| == |issues|
    ensures forall i :: 0 <= i < |issues| ==> StartsWith(r[i], Decimal(i + 1) + ". ")
  {
    seq(|issues|, i requires 0 <= i < |issues| => Decimal(i + 1) + ". " + issues[i])
  }

  /**
    The numbers the prompt shows are the numbers decoding expects: the
    number on line `i` of the listing selects the issue on that line, and 0
    selects the last issue.
   */
  lemma ListingNumbersResolve(issues: seq<string>, i: nat)
    requires i < |issues|
    ensures DigitsValue(Decimal(i + 1)) == i + 1
    ensures IssueNumbered(issues, i + 1) == Some(issues[i])
    ensures IssueNumbered(issues, 0) == Some(issues[|issues| - 1])
  {
  }

  /** Every number of the group selects an issue. */
  predicate Resolvable(issues: seq<string>, group: seq<int>) {
    forall k :: 0 <= k < |group| ==> IssueNumbered(issues, group[k]).Some?
  }

  predicate AllResolvable(issues: seq<string>, groupings: seq<seq<int>>) {
    forall g :: 0 <= g < |groupings| ==> Resolvable(issues, groupings[g])
  }

  /** `[issues[i-1] for i in group]`. */
  function ResolveGroup(issues: seq<string>, group: seq<int>): (r: seq<string>)
    requires Resolvable(issues, group)
    ensures |r| == |group|
    ensures forall k :: 0 <= k < |group| ==> Some(r[k]) == IssueNumbered(issues, group[k]) && r[k] in issues
  {
    seq(|group|, k requires 0 <= k < |group| => IssueNumbered(issues, group[k]).value)
  }

  /** `[[issue] for issue in issues]`: the fallback, one group per issue. */
  function Singletons(issues: seq<string>): (r: seq<seq<string>>)
    ensures |r| == |issues|
    ensures forall i :: 0 <= i < |issues| ==> r[i] == [issues[i]]
  {
    seq(|issues|, i requires 0 <= i < |issues| => [issues[i]])
  }

  /** The decoded groups: group `g` lists the issues its numbers select, in order. */
  function Resolved(issues: seq<string>, gs: seq<seq<int>>): (r: seq<seq<string>>)
    requires AllResolvable(issues, gs)
    ensures |r| == |gs|
    ensures forall g :: 0 <= g < |gs| ==> |r[g]| == |gs[g]|
    ensures forall g, k :: 0 <= g < |gs| && 0 <= k < |gs[g]| ==>
      Some(r[g][k]) == IssueNumbered(issues, gs[g][k])
  {
    seq(|gs|, g requires 0 <= g < |gs| => ResolveGroup(issues, gs[g]))
  }

  /**
    What `group_issues_intelligently` returns for the model's reply, given
    the JSON parser (None where `json.loads` raises or yields something the
    decoding loop cannot iterate).
   */
  function IssueGroups(issues: seq<string>, reply: string, parse: string -> Option<seq<seq<int>>>): (r: seq<seq<string>>)
    ensures parse(StripFence(reply)).None? ==> r == Singletons(issues)
    ensures parse(StripFence(reply)).Some? ==>
      var gs := parse(StripFence(reply)).value;
      if AllResolvable(issues, gs) then r == Resolved(issues, gs) && |r| == |gs| else r == Singletons(issues)
    // every group holds only issues of the list, decoded or fallen back
    ensures forall g, k :: 0 <= g < |r| && 0 <= k < |r[g]| ==> r[g][k] in issues
  {
    match parse(StripFence(reply))
    case None => Singletons(issues)
    case Some(gs) => if AllResolvable(issues, gs) then Resolved(issues, gs) else Singletons(issues)
  }

  /**
    The decoding loop of `group_issues_intelligently`: one group after the
    other, each number looked up with Python's indexing; None at the first
    number that raises `IndexError`.
   */
  method DecodeGroupings(issues: seq<string>, groupings: seq<seq<int>>) returns (r: Option<seq<seq<string>>>)
    ensures r.Some? <==> AllResolvable(issues, groupings)
    ensures r.Some? ==> r.value == Resolved(issues, groupings)
  {
    var groups := [];
    var g := 0;
    while g < |groupings|
      invariant 0 <= g <= |groupings|
      invariant AllResolvable(issues, groupings[..g])
      invariant groups == Resolved(issues, groupings[..g])
    {
      if !Resolvable(issues, groupings[g]) {
        return None;
      }
      groups := groups + [ResolveGroup(issues, groupings[g])];
      assert groupings[..g + 1] == groupings[..g] + [groupings[g]];
      g := g + 1;
    }
    assert groupings[..g] == groupings;
    return Some(groups);
  }

  /**
    `group_issues_intelligently`: decodes the groupings one by one, and falls
    back to singletons as soon as parsing fails or a number is out of range.
   */
  method GroupIssuesIntelligently(issues: seq<string>, reply: string, parse: string -> Option<seq<seq<int>>>)
    returns (groups: seq<seq<string>>)
    ensures groups == IssueGroups(issues, reply, parse)
  {
    var text := StripFence(reply);
    var parsed := parse(text);
    if parsed.None? {
      return Singletons(issues);
    }
    var decoded := DecodeGroupings(issues, parsed.value);
    if decoded.None? {
      return Singletons(issues);
    }
    return decoded.value;
  }

  /** All groups in order, run together. */
  function Flatten<T>(groups: seq<seq<T>>): seq<T>
  {
    if |groups| == 0 then [] else Flatten(groups[..|groups| - 1]) + groups[|groups| - 1]
  }

  /** The fallback puts each issue in a group of its own, in the original order. */
  lemma {:induction false} SingletonsFlatten(issues: seq<string>)
    ensures Flatten(Singletons(issues)) == issues
  {
    if |issues| > 0 {
      var front := issues[..|issues| - 1];
      SingletonsFlatten(front);
      assert Singletons(issues)[..|issues| - 1] == Singletons(front);
    }
  }

  /** The numbers 1..n in order: the grouping that lists every issue once. */
  function Numbers(n: nat): seq<int>
  {
    seq(n, i requires 0 <= i < n => i + 1)
  }

  /** Resolving two runs of numbers one after the other. */
  lemma ResolveConcat(issues: seq<string>, a: seq<int>, b: seq<int>)
    requires Resolvable(issues, a) && Resolvable(issues, b)
    ensures Resolvable(issues, a + b)
    ensures ResolveGroup(issues, a + b) == ResolveGroup(issues, a) + ResolveGroup(issues, b)
  {
  }

  lemma {:induction false} FlattenResolved(issues: seq<string>, gs: seq<seq<int>>)
    requires AllResolvable(issues, gs)
    ensures Resolvable(issues, Flatten(gs))
    ensures Flatten(Resolved(issues, gs)) == ResolveGroup(issues, Flatten(gs))
  {
    if |gs| > 0 {
      var n := |gs| - 1;
      var front, last := gs[..n], gs[n];
      assert AllResolvable(issues, front) by {
        assert forall g :: 0 <= g < n ==> front[g] == gs[g];
      }
      FlattenResolved(issues, front);
      assert Flatten(gs) == Flatten(front) + last;
      ResolveConcat(issues, Flatten(front), last);
      var r := Resolved(issues, gs);
      assert r[..n] == Resolved(issues, front);
      assert Flatten(r) == Flatten(r[..n]) + r[n];
    }
  }

  /** Taking the last element off `xs` and a matching one out of `ys` keeps the multisets equal. */
  lemma RemoveMatching<T>(xs: seq<T>, ys: seq<T>, j: nat)
    requires |xs| > 0 && j < |ys| && ys[j] == xs[|xs| - 1]
    requires multiset(xs) == multiset(ys)
    ensures multiset(xs[..|xs| - 1]) == multiset(ys[..j] + ys[j + 1..])
  {
    var x := xs[|xs| - 1];
    var f, g := xs[..|xs| - 1], ys[..j] + ys[j + 1..];
    assert xs == f + [x];
    assert ys == ys[..j] + [x] + ys[j + 1..];
    assert multiset(xs) == multiset(f) + multiset{x};
    assert multiset(ys) == multiset(g) + multiset{x};
    assert multiset(f) == multiset(xs) - multiset{x} == multiset(ys) - multiset{x} == multiset(g);
  }

  /** Resolving a sequence of numbers picked apart at `j`. */
  lemma ResolveAround(issues: seq<string>, ys: seq<int>, j: nat)
    requires Resolvable(issues, ys) && j < |ys|
    ensures Resolvable(issues, ys[..j]) && Resolvable(issues, ys[j + 1..])
    ensures Resolvable(issues, ys[..j] + ys[j + 1..])
    ensures ResolveGroup(issues, ys) == ResolveGroup(issues, ys[..j]) + [IssueNumbered(issues, ys[j]).value] + ResolveGroup(issues, ys[j + 1..])
    ensures ResolveGroup(issues, ys[..j] + ys[j + 1..]) == ResolveGroup(issues, ys[..j]) + ResolveGroup(issues, ys[j + 1..])
  {
  }

  /** Decoding a group is decoding all but its last number, then that number. */
  lemma ResolveLast(issues: seq<string>, xs: seq<int>)
    requires Resolvable(issues, xs) && |xs| > 0
    ensures Resolvable(issues, xs[..|xs| - 1])
    ensures ResolveGroup(issues, xs) == ResolveGroup(issues, xs[..|xs| - 1]) + [IssueNumbered(issues, xs[|xs| - 1]).value]
  {
  }

  lemma {:induction false} ResolveRespectsMultiset(issues: seq<string>, xs: seq<int>, ys: seq<int>)
    requires Resolvable(issues, xs) && Resolvable(issues, ys)
    requires multiset(xs) == multiset(ys)
    decreases |xs|
    ensures multiset(ResolveGroup(issues, xs)) == multiset(ResolveGroup(issues, ys))
  {
    // the decoding enters only through the lemmas below
    hide *;
    if |xs| > 0 {
      var n := |xs| - 1;
      var x, front := xs[n], xs[..n];
      assert x in multiset(ys);
      var j :| 0 <= j < |ys| && ys[j] == x;
      RemoveMatching(xs, ys, j);
      ResolveAround(issues, ys, j);
      ResolveLast(issues, xs);
      ResolveRespectsMultiset(issues, front, ys[..j] + ys[j + 1..]);
      var v := IssueNumbered(issues, x).value;
      MultisetInsert(ResolveGroup(issues, front), ResolveGroup(issues, ys[..j]), ResolveGroup(issues, ys[j + 1..]), v);
    }
  }

  /** Putting the same element after `f` and between `a` and `b` keeps two equal multisets equal. */
  lemma MultisetInsert<T>(f: seq<T>, a: seq<T>, b: seq<T>, v: T)
    requires multiset(f) == multiset(a + b)
    ensures multiset(f + [v]) == multiset(a + [v] + b)
  {
  }

  /**
    When the model's grouping uses every issue number exactly once (in any
    order and any grouping), every issue is requested exactly as often as it
    occurs in the list: the groups are a rearrangement of the issues.
   */
  lemma PartitionCoversEveryIssue(issues: seq<string>, reply: string, parse: string -> Option<seq<seq<int>>>)
    requires parse(StripFence(reply)).Some?
    requires multiset(Flatten(parse(StripFence(reply)).value)) == multiset(Numbers(|issues|))
    ensures multiset(Flatten(IssueGroups(issues, reply, parse))) == multiset(issues)
  {
    var gs := parse(StripFence(reply)).value;
    // the reply enters only through the contract of `IssueGroups`
    hide *;
    PermutationResolvable(issues, gs);
    NumbersResolve(issues);
    FlattenResolved(issues, gs);
    ResolveRespectsMultiset(issues, Flatten(gs), Numbers(|issues|));
  }

  /** The numbers 1..n select the issues in order. */
  lemma NumbersResolve(issues: seq<string>)
    ensures Resolvable(issues, Numbers(|issues|)) && ResolveGroup(issues, Numbers(|issues|)) == issues
  {
    assert Resolvable(issues, Numbers(|issues|));
  }

  /** A grouping that uses the numbers 1..n once each only uses numbers that select an issue. */
  lemma PermutationResolvable(issues: seq<string>, gs: seq<seq<int>>)
    requires multiset(Flatten(gs)) == multiset(Numbers(|issues|))
    ensures AllResolvable(issues, gs)
  {
    var ns := Numbers(|issues|);
    forall g, k | 0 <= g < |gs| && 0 <= k < |gs[g]|
      ensures IssueNumbered(issues, gs[g][k]).Some?
    {
      FlattenMember(gs, g, k);
      assert gs[g][k] in multiset(ns);
    }
  }

  lemma {:induction false} FlattenMember<T>(gs: seq<seq<T>>, g: nat, k: nat)
    requires g < |gs| && k < |gs[g]|
    ensures gs[g][k] in Flatten(gs)
  {
    if g < |gs| - 1 {
      FlattenMember(gs[..|gs| - 1], g, k);
      assert gs[..|gs| - 1][g] == gs[g];
    }
  }

  // ---------------------------------------------------------------------
  // The backup file

  /**
    `file_path.replace(".tsx", "_old.tsx").replace(".jsx", "_old.jsx")`. The
    backup lands on a different path exactly when the path mentions `.tsx`
    or `.jsx`; any other path is its own backup path.
   */
  function BackupPath(path: string): (r: string)
    ensures r == path <==> !Contains(path, ".tsx") && !Contains(path, ".jsx")
  {
    var p1 := ReplaceAll(path, ".tsx", "_old.tsx");
    ReplaceGrows(path, ".tsx", "_old.tsx");
    ReplaceGrows(p1, ".jsx", "_old.jsx");
    ReplaceAll(p1, ".jsx", "_old.jsx")
  }

  /** Replacing the one extension occurrence at the end of a name. */
  lemma ReplaceExtension(stem: string, ext: string, repl: string)
    requires HeadUnique(ext) && !Contains(stem, ext)
    ensures ReplaceAll(stem + ext, ext, repl) == stem + repl
  {
    assert stem + ext == stem + ext + "";
    FirstOccurrenceAfter(stem, ext, "");
    ReplaceAfterFirst(stem, ext, "", repl);
    assert !Contains("", ext);
    assert stem + repl + "" == stem + repl;
  }

  /** A component `Name.tsx` is backed up as `Name_old.tsx`. */
  lemma BackupOfTsx(stem: string)
    requires !Contains(stem, ".tsx") && !Contains(stem, ".jsx")
    ensures BackupPath(stem + ".tsx") == stem + "_old.tsx"
  {
    hide ReplaceAll;
    assert HeadUnique(".tsx");
    ReplaceExtension(stem, ".tsx", "_old.tsx");
    OldTsxLacksJsx(stem);
  }

  lemma OldTsxLacksJsx(stem: string)
    requires !Contains(stem, ".jsx")
    ensures !Contains(stem + "_old.tsx", ".jsx")
  {
    MissingChar("_old.tsx", ".jsx", 1);
    ConcatAbsence(stem, "_old.tsx", ".jsx");
  }

  /** A component `Name.jsx` is backed up as `Name_old.jsx`. */
  lemma BackupOfJsx(stem: string)
    requires !Contains(stem, ".tsx") && !Contains(stem, ".jsx")
    ensures BackupPath(stem + ".jsx") == stem + "_old.jsx"
  {
    hide ReplaceAll;
    assert !Contains(stem + ".jsx", ".tsx") by {
      MissingChar(".jsx", ".tsx", 1);
      ConcatAbsence(stem, ".jsx", ".tsx");
    }
    assert HeadUnique(".jsx");
    ReplaceExtension(stem, ".jsx", "_old.jsx");
  }

  // ---------------------------------------------------------------------
  // The fix pass of `run`

  /** The files `run` reads and writes, with every write in the order it happens. */
  class Disk {
    var files: map<string, string>
    var writes: seq<(string, string)>

    constructor (initial: map<string, string>)
      ensures files == initial && writes == []
    {
      files := initial;
      writes := [];
    }

    /** `with open(path, "w") as f: f.write(content)`. */
    method Write(path: string, content: string)
      modifies this
      ensures files == old(files)[path := content]
      ensures writes == old(writes) + [(path, content)]
    {
      files := files[path := content];
      writes := writes + [(path, content)];
    }
  }

  /** What `suggest_a11y_fix` is asked: the file as it is on disk, and the issues joined by newlines. */
  datatype FixRequest = FixRequest(file: string, issues: string)

  /** How `run` ends: the file could not be read, no issues (the formatted text is returned), or the pass ran. */
  datatype RunResult = Unreadable | NoIssues(formatted: string) | FixPassDone

  /** The `<file>` block of a fix reply, when `if fixed_content:` accepts it (present and non-empty). */
  function FixedFile(reply: string): (r: Option<string>)
    ensures r.Some? <==> ExtractTagContent(reply, "file").Some? && ExtractTagContent(reply, "file").value != ""
    ensures r.Some? ==> r.value != "" && Some(r.value) == ExtractTagContent(reply, "file")
  {
    match ExtractTagContent(reply, "file")
    case Some(c) => if c != "" then Some(c) else None
    case None => None
  }

  /** The file after one reply: its `<file>` block when it has one, else the file as it was. */
  function Applied(current: string, reply: string): (r: string)
    ensures r == current || Some(r) == FixedFile(reply)
    // the file never becomes empty: an empty `<file>` block is ignored
    ensures current != "" ==> r != ""
  {
    match FixedFile(reply)
    case Some(c) => c
    case None => current
  }

  /** The file after the replies so far have been applied to `start`, one after another. */
  function AfterFixes(start: string, replies: seq<string>): (r: string)
    ensures r == start || exists j :: 0 <= j < |replies| && Some(r) == FixedFile(replies[j])
    ensures start != "" ==> r != ""
  {
    if |replies| == 0 then start
    else Applied(AfterFixes(start, replies[..|replies| - 1]), replies[|replies| - 1])
  }

  lemma NoRepliesKeepStart(start: string, replies: seq<string>)
    ensures AfterFixes(start, replies[..0]) == start
  {
  }

  /** One more reply is applied to the file as the replies before it left it. */
  lemma AfterFixesStep(start: string, replies: seq<string>, i: nat)
    requires i < |replies|
    ensures AfterFixes(start, replies[..i + 1]) == Applied(AfterFixes(start, replies[..i]), replies[i])
  {
    assert replies[..i + 1][..i] == replies[..i];
  }

  /** The writes a pass makes: one `(path, block)` per reply with a non-empty `<file>` block, in reply order. */
  function FixWrites(path: string, replies: seq<string>): (r: seq<(string, string)>)
    ensures |r| <= |replies|
    ensures forall v :: 0 <= v < |r| ==> r[v].0 == path && r[v].1 != ""
  {
    if |replies| == 0 then []
    else
      FixWrites(path, replies[..|replies| - 1]) + match FixedFile(replies[|replies| - 1])
        case Some(c) => [(path, c)]
        case None => []
  }

  /** One more reply adds its block, if any, to the writes of the replies before it. */
  lemma FixWritesStep(path: string, replies: seq<string>, i: nat)
    requires i < |replies|
    ensures FixWrites(path, replies[..i + 1]) == FixWrites(path, replies[..i]) +
      (if FixedFile(replies[i]).Some? then [(path, FixedFile(replies[i]).value)] else [])
  {
    assert replies[..i + 1][..i] == replies[..i];
  }

  /** A pass writes nothing exactly when no reply has a non-empty `<file>` block. */
  lemma {:induction false} FixWritesNone(path: string, replies: seq<string>)
    decreases |replies|
    ensures FixWrites(path, replies) == [] <==> forall k :: 0 <= k < |replies| ==> FixedFile(replies[k]).None?
  {
    hide *;
    if |replies| > 0 {
      var n := |replies| - 1;
      var front := replies[..n];
      FixWritesNone(path, front);
      FixWritesStep(path, replies, n);
      assert replies[..n + 1] == replies;
      assert forall k :: 0 <= k < n ==> front[k] == replies[k];
    }
  }

  /** The last write of a pass is what the file ends as; a pass without writes leaves the start. */
  lemma {:induction false} FixWritesFinal(path: string, start: string, replies: seq<string>)
    decreases |replies|
    ensures FixWrites(path, replies) == [] ==> AfterFixes(start, replies) == start
    ensures FixWrites(path, replies) != [] ==>
      FixWrites(path, replies)[|FixWrites(path, replies)| - 1].1 == AfterFixes(start, replies)
  {
    hide ExtractTagContent;
    if |replies| > 0 {
      var n := |replies| - 1;
      FixWritesFinal(path, start, replies[..n]);
      FixWritesStep(path, replies, n);
      AfterFixesStep(start, replies, n);
      assert replies[..n + 1] == replies;
    } else {
      NoRepliesKeepStart(start, replies);
      FixWritesNone(path, replies);
      assert replies[..0] == replies;
    }
  }

  /**
    One round of the loop of `run` after the request: the `<file>` block of
    the reply, when present and non-empty, is written over the file.
   */
  method ApplyFix(disk: Disk, filePath: string, reply: string)
    requires filePath in disk.files
    modifies disk
    ensures disk.files == old(disk.files)[filePath := Applied(old(disk.files)[filePath], reply)]
    ensures FixedFile(reply).Some? ==> disk.writes == old(disk.writes) + [(filePath, FixedFile(reply).value)]
    ensures FixedFile(reply).None? ==> disk.writes == old(disk.writes)
    ensures disk.writes == old(disk.writes) || disk.writes == old(disk.writes) + [(filePath, disk.files[filePath])]
  {
    var fixedContent := ExtractTagContent(reply, "file");
    if fixedContent.Some? && fixedContent.value != "" {
      disk.Write(filePath, fixedContent.value);
    }
  }

  /** The replies to the first `n` fix requests. */
  function Replies(fixReply: nat -> string, n: nat): (r: seq<string>)
    ensures |r| == n && forall i :: 0 <= i < n ==> r[i] == fixReply(i)
  {
    seq(n, i requires 0 <= i < n => fixReply(i))
  }

  /** After a pass, the file holds the last non-empty `<file>` block among the replies. */
  lemma {:induction false} LastFixWins(start: string, replies: seq<string>, j: nat)
    requires j < |replies| && FixedFile(replies[j]).Some?
    requires forall k :: j < k < |replies| ==> FixedFile(replies[k]).None?
    decreases |replies|
    ensures AfterFixes(start, replies) == FixedFile(replies[j]).value
  {
    if j < |replies| - 1 {
      LastFixWins(start, replies[..|replies| - 1], j);
    }
  }

  /** A pass in which no reply has a non-empty `<file>` block leaves the formatted text in place. */
  lemma {:induction false} NoFixKeepsStart(start: string, replies: seq<string>)
    requires forall k :: 0 <= k < |replies| ==> FixedFile(replies[k]).None?
    decreases |replies|
    ensures AfterFixes(start, replies) == start
  {
    if |replies| > 0 {
      NoFixKeepsStart(start, replies[..|replies| - 1]);
    }
  }

  /**
    The loop of `run`: for each group in order, the request is the file as
    it is now plus the group's issues joined by newlines, and a non-empty
    `<file>` block in the reply overwrites the file. Only the file is
    written, and the written contents are `AfterFixes` of the replies.
   */
  method FixGroups(disk: Disk, filePath: string, groups: seq<seq<string>>, fixReply: nat -> string)
    returns (requests: seq<FixRequest>)
    requires filePath in disk.files
    modifies disk
    ensures var start, replies := old(disk.files)[filePath], Replies(fixReply, |groups|);
      && |requests| == |groups|
      && (forall i :: 0 <= i < |groups| ==>
            requests[i] == FixRequest(AfterFixes(start, replies[..i]), Join(groups[i], "\n")))
      && disk.files == old(disk.files)[filePath := AfterFixes(start, replies)]
    // one write of the component file per non-empty `<file>` block, in reply order
    ensures disk.writes == old(disk.writes) + FixWrites(filePath, Replies(fixReply, |groups|))
  {
    // the pass depends on a reply only through `Applied`
    hide *;
    ghost var start := disk.files[filePath];
    ghost var replies := Replies(fixReply, |groups|);
    // contents[j]: the file as request j finds it
    ghost var contents := [start];
    requests := [];
    var i := 0;
    while i < |groups|
      invariant 0 <= i <= |groups|
      invariant |requests| == i && |contents| == i + 1 && contents[0] == start
      invariant forall j :: 0 <= j < i ==> contents[j + 1] == Applied(contents[j], replies[j])
      invariant forall j :: 0 <= j < i ==> requests[j] == FixRequest(contents[j], Join(groups[j], "\n"))
      invariant disk.files == old(disk.files)[filePath := contents[i]]
      invariant disk.writes == old(disk.writes) + FixWrites(filePath, replies[..i])
    {
      var combined := Join(groups[i], "\n");
      RequestsExtend(requests, contents, groups, FixRequest(disk.files[filePath], combined));
      requests := requests + [FixRequest(disk.files[filePath], combined)];
      var reply := fixReply(i);
      assert reply == replies[i];
      ApplyFix(disk, filePath, reply);
      FixWritesStep(filePath, replies, i);
      ChainExtends(contents, replies, i, disk.files[filePath]);
      contents := contents + [disk.files[filePath]];
      i := i + 1;
    }
    AfterFixesChain(start, replies, contents);
    assert replies[..|groups|] == replies;
  }

  lemma RequestsExtend(requests: seq<FixRequest>, contents: seq<string>, groups: seq<seq<string>>, r: FixRequest)
    requires |requests| < |contents| && |requests| < |groups|
    requires forall j :: 0 <= j < |requests| ==> requests[j] == FixRequest(contents[j], Join(groups[j], "\n"))
    requires r == FixRequest(contents[|requests|], Join(groups[|requests|], "\n"))
    ensures forall j :: 0 <= j < |requests| + 1 ==> (requests + [r])[j] == FixRequest(contents[j], Join(groups[j], "\n"))
  {
  }

  lemma ChainExtends(contents: seq<string>, replies: seq<string>, i: nat, next: string)
    requires |contents| == i + 1 && i < |replies|
    requires forall j :: 0 <= j < i ==> contents[j + 1] == Applied(contents[j], replies[j])
    requires next == Applied(contents[i], replies[i])
    ensures forall j :: 0 <= j < i + 1 ==> (contents + [next])[j + 1] == Applied((contents + [next])[j], replies[j])
  {
    hide ExtractTagContent;
  }

  /** A chain of contents, each the previous one with the next reply applied, runs through `AfterFixes`. */
  lemma {:induction false} AfterFixesChain(start: string, replies: seq<string>, contents: seq<string>)
    requires |contents| == |replies| + 1 && contents[0] == start
    requires forall j :: 0 <= j < |replies| ==> contents[j + 1] == Applied(contents[j], replies[j])
    decreases |replies|
    ensures forall j :: 0 <= j <= |replies| ==> contents[j] == AfterFixes(start, replies[..j])
  {
    hide *;
    NoRepliesKeepStart(start, replies);
    if |replies| > 0 {
      var n := |replies| - 1;
      AfterFixesChain(start, replies[..n], contents[..n + 1]);
      forall j | 0 <= j <= |replies|
        ensures contents[j] == AfterFixes(start, replies[..j])
      {
        if j <= n {
          assert replies[..n][..j] == replies[..j];
          assert contents[..n + 1][j] == contents[j];
        } else {
          AfterFixesStep(start, replies, n);
          assert replies[..n][..n] == replies[..n];
          assert contents[..n + 1][n] == contents[n];
        }
      }
    }
  }

  /**
    `run(file_path)`: backs the file up, collects issues (returning the
    formatted text when there are none), writes the formatted text, groups
    the issues, and requests one fix per group in group order, overwriting
    the file with every non-empty `<file>` block. `fixReply(i)` is the
    model's reply to the `i`-th request.
   */
  method Run(disk: Disk, filePath: string,
             prettier: string -> Option<string>, lint: string -> Tools.LintRun,
             groupingReply: string, parse: string -> Option<seq<seq<int>>>,
             fixReply: nat -> string)
    returns (result: RunResult, requests: seq<FixRequest>)
    modifies disk
    ensures filePath !in old(disk.files) ==>
      result == Unreadable && requests == []
      && disk.files == old(disk.files) && disk.writes == old(disk.writes)
    ensures filePath in old(disk.files) ==>
      var original := old(disk.files)[filePath];
      var backup := BackupPath(filePath);
      var found := Tools.A11yIssues(prettier(Strip(original)), lint(original));
      var w := |old(disk.writes)|;
      // the backup is the first write, and holds the original text
      && |disk.writes| > w && disk.writes[..w + 1] == old(disk.writes) + [(backup, original)]
      && backup in disk.files && (backup != filePath ==> disk.files[backup] == original)
      && (found.0 == [] ==>
            result == NoIssues(found.1) && requests == []
            && disk.writes == old(disk.writes) + [(backup, original)]
            && disk.files == old(disk.files)[backup := original])
      && (found.0 != [] ==>
            var groups := IssueGroups(found.0, groupingReply, parse);
            var replies := Replies(fixReply, |groups|);
            && result == FixPassDone
            && |requests| == |groups|
            && (forall i :: 0 <= i < |groups| ==>
                  requests[i] == FixRequest(AfterFixes(found.1, replies[..i]), Join(groups[i], "\n")))
            && disk.files == old(disk.files)[backup := original][filePath := AfterFixes(found.1, replies)]
            // the formatted text, then one write per non-empty `<file>` block
            && disk.writes == old(disk.writes) + [(backup, original), (filePath, found.1)] + FixWrites(filePath, replies))
  {
    // the pass depends on the operations it calls only through their contracts
    hide *;
    requests := [];
    if filePath !in disk.files {
      return Unreadable, [];
    }
    var original := disk.files[filePath];
    var backup := BackupPath(filePath);
    disk.Write(backup, original);
    var onDisk := disk.files[filePath];
    var issues, formatted := Tools.GetA11yIssues(prettier(Strip(onDisk)), lint(onDisk));
    if issues == [] {
      return NoIssues(formatted), [];
    }
    disk.Write(filePath, formatted);
    var groups := GroupIssuesIntelligently(issues, groupingReply, parse);
    requests := FixGroups(disk, filePath, groups, fixReply);
    ghost var replies := Replies(fixReply, |groups|);
    assert disk.writes == old(disk.writes) + [(backup, original), (filePath, formatted)] + FixWrites(filePath, replies);
    assert disk.writes[..|old(disk.writes)| + 1] == old(disk.writes) + [(backup, original)];
    ghost var m := old(disk.files)[backup := original];
    assert m[filePath := formatted][filePath := AfterFixes(formatted, Replies(fixReply, |groups|))]
        == m[filePath := AfterFixes(formatted, Replies(fixReply, |groups|))];
    result := FixPassDone;
  }
}

=== FILE: py_strings.dfy ===
/**
  The few Python `str` operations the agent relies on, with Python's meaning:
  `pat in s`, `s.split(sep)`, `sep.join(parts)`, `s.strip()`, `s.startswith(p)`,
  `s.replace(old, new)` and `str(n)` for an integer.
  A string is a sequence of characters.
 */
module PyStrings {
  import opened Wrappers

  /** `pat` occurs in `s` starting at index `i`. */
  predicate OccursAt(s: string, pat: string, i: int) {
    0 <= i && i + |pat| <= |s| && forall m :: 0 <= m < |pat| ==> s[i + m] == pat[m]
  }

  /** The first index at or after `from` where `pat` occurs in `s`. */
  function FindFrom(s: string, pat: string, from: nat): (r: Option<nat>)
    decreases |s| - from
    ensures r.Some? ==> from <= r.value && OccursAt(s, pat, r.value)
    ensures r.Some? ==> forall j :: from <= j < r.value ==> !OccursAt(s, pat, j)
    ensures r.None? ==> forall j :: from <= j ==> !OccursAt(s, pat, j)
  {
    if from + |pat| > |s| then None
    else if OccursAt(s, pat, from) then Some(from)
    else FindFrom(s, pat, from + 1)
  }

  /** Python's `pat in s`. */
  predicate Contains(s: string, pat: string) {
    FindFrom(s, pat, 0).Some?
  }

  /** Python's `s.startswith(p)`. */
  predicate StartsWith(s: string, p: string) {
    |p| <= |s| && s[..|p|] == p
  }

  /** The first character of `pat` does not occur again in `pat`. */
  predicate HeadUnique(pat: string) {
    |pat| > 0 && forall j :: 0 < j < |pat| ==> pat[j] != pat[0]
  }

  lemma AbsentEverywhere(s: string, pat: string)
    requires !Contains(s, pat)
    ensures forall j :: !OccursAt(s, pat, j)
  {
    assert forall j :: 0 <= j ==> !OccursAt(s, pat, j);
  }

  /** `pat in s` holds exactly when `pat` occurs at some index of `s`. */
  lemma ContainsIffOccurs(s: string, pat: string)
    ensures Contains(s, pat) <==> exists j :: OccursAt(s, pat, j)
  {
    if Contains(s, pat) {
      assert OccursAt(s, pat, FindFrom(s, pat, 0).value);
    } else {
      AbsentEverywhere(s, pat);
    }
  }

  /** An occurrence with none before it is the one `FindFrom` reports. */
  lemma FirstAt(s: string, pat: string, i: nat)
    requires OccursAt(s, pat, i)
    requires forall k :: 0 <= k < i ==> !OccursAt(s, pat, k)
    ensures FindFrom(s, pat, 0) == Some(i)
  {
  }

  lemma PresentSomewhere(s: string, pat: string, j: int)
    requires OccursAt(s, pat, j)
    ensures Contains(s, pat)
  {
  }

  /** A slice of a string that does not contain `pat` does not contain it either. */
  lemma SliceKeepsAbsence(s: string, pat: string, lo: int, hi: int)
    requires 0 <= lo <= hi <= |s|
    requires !Contains(s, pat)
    ensures !Contains(s[lo..hi], pat)
  {
    AbsentEverywhere(s, pat);
    var t := s[lo..hi];
    forall j | OccursAt(t, pat, j)
      ensures OccursAt(s, pat, lo + j)
    {
    }
  }

  /** A character of `pat` that `b` lacks keeps `pat` out of `b`. */
  lemma MissingChar(b: string, pat: string, m: nat)
    requires m < |pat|
    requires forall i :: 0 <= i < |b| ==> b[i] != pat[m]
    ensures !Contains(b, pat)
  {
    forall j | 0 <= j && j + |pat| <= |b|
      ensures !OccursAt(b, pat, j)
    {
      assert b[j + m] != pat[m];
    }
  }

  /**
    Gluing `b` onto a string `a` that lacks `pat` creates no occurrence
    starting inside `a`, when `b` begins with a character found nowhere in
    `pat` past its first position.
   */
  lemma NoSpanning(a: string, b: string, pat: string)
    requires |pat| > 0 && |b| > 0
    requires !Contains(a, pat)
    requires forall j :: 0 < j < |pat| ==> pat[j] != b[0]
    ensures forall k :: 0 <= k < |a| ==> !OccursAt(a + b, pat, k)
  {
    AbsentEverywhere(a, pat);
    forall k | 0 <= k < |a|
      ensures !OccursAt(a + b, pat, k)
    {
      if k + |pat| <= |a| {
        assert OccursAt(a + b, pat, k) ==> OccursAt(a, pat, k);
      } else if k + |pat| <= |a + b| {
        var m := |a| - k;
        assert (a + b)[k + m] == b[0] != pat[m];
      }
    }
  }

  /** Neither half holding `pat`, and no straddling occurrence, keeps it out of the whole. */
  lemma ConcatAbsence(a: string, b: string, pat: string)
    requires |pat| > 0 && |b| > 0
    requires !Contains(a, pat) && !Contains(b, pat)
    requires forall j :: 0 < j < |pat| ==> pat[j] != b[0]
    ensures !Contains(a + b, pat)
  {
    NoSpanning(a, b, pat);
    AbsentEverywhere(b, pat);
    forall k | |a| <= k && k + |pat| <= |a + b|
      ensures !OccursAt(a + b, pat, k)
    {
      assert OccursAt(a + b, pat, k) ==> OccursAt(b, pat, k - |a|);
    }
  }

  /** In `a + pat + b`, with `a` free of `pat`, the first occurrence of `pat` is right after `a`. */
  lemma FirstOccurrenceAfter(a: string, pat: string, b: string)
    requires HeadUnique(pat)
    requires !Contains(a, pat)
    ensures FindFrom(a + pat + b, pat, 0) == Some(|a|)
  {
    var s := a + pat + b;
    assert s == a + (pat + b);
    NoSpanning(a, pat + b, pat);
    assert OccursAt(s, pat, |a|);
  }

  /** Python's `sep.join(parts)`. */
  function Join(parts: seq<string>, sep: string): (r: string)
    ensures |parts| > 0 ==> |r| == TotalLength(parts) + (|parts| - 1) * |sep|
    ensures |parts| > 0 ==> StartsWith(r, parts[0])
  {
    if |parts| == 0 then ""
    else if |parts| == 1 then parts[0]
    else parts[0] + sep + Join(parts[1..], sep)
  }

  /** The summed lengths of the parts. */
  function TotalLength(parts: seq<string>): nat
  {
    if |parts| == 0 then 0 else |parts[0]| + TotalLength(parts[1..])
  }

  /** The text before the first occurrence of `sep`, which it therefore lacks. */
  lemma BeforeFirstIsFree(s: string, sep: string, i: nat)
    requires |sep| > 0
    requires FindFrom(s, sep, 0) == Some(i)
    ensures !Contains(s[..i], sep)
  {
    var t := s[..i];
    forall j | OccursAt(t, sep, j)
      ensures OccursAt(s, sep, j) && j < i
    {
    }
  }

  /**
    Python's `s.split(sep)` for a non-empty separator: the pieces between the
    occurrences of `sep`, scanned left to right.
   */
  function Split(s: string, sep: string): (parts: seq<string>)
    requires |sep| > 0
    decreases |s|
    ensures |parts| >= 1
    ensures |parts| == 1 <==> !Contains(s, sep)
    ensures forall k :: 0 <= k < |parts| ==> !Contains(parts[k], sep)
    ensures Join(parts, sep) == s
  {
    match FindFrom(s, sep, 0)
    case None => [s]
    case Some(i) =>
      var head, tail := s[..i], s[i + |sep|..];
      BeforeFirstIsFree(s, sep, i);
      var rest := Split(tail, sep);
      JoinCons(head, rest, sep);
      SplitAround(s, sep, i);
      [head] + rest
  }

  lemma JoinCons(a: string, rest: seq<string>, sep: string)
    requires |rest| >= 1
    ensures Join([a] + rest, sep) == a + sep + Join(rest, sep)
  {
    assert ([a] + rest)[1..] == rest;
  }

  lemma SplitAround(s: string, sep: string, i: nat)
    requires OccursAt(s, sep, i)
    ensures s == s[..i] + sep + s[i + |sep|..]
  {
    assert s[i..i + |sep|] == sep;
    assert s == s[..i] + s[i..i + |sep|] + s[i + |sep|..];
  }

  /** The first piece of a split is a prefix of the string. */
  lemma SplitHeadIsPrefix(s: string, sep: string)
    requires |sep| > 0
    ensures |Split(s, sep)[0]| <= |s| && Split(s, sep)[0] == s[..|Split(s, sep)[0]|]
  {
    var parts := Split(s, sep);
    if |parts| > 1 {
      assert s == parts[0] + sep + Join(parts[1..], sep);
      assert s[..|parts[0]|] == parts[0];
    }
  }

  /** The first piece of a split runs up to the first occurrence of `sep`, or to the end. */
  lemma SplitHeadAt(s: string, sep: string, n: nat)
    requires |sep| > 0 && n <= |s|
    requires forall k :: 0 <= k < n ==> !OccursAt(s, sep, k)
    requires n == |s| || OccursAt(s, sep, n)
    ensures Split(s, sep)[0] == s[..n]
  {
    match FindFrom(s, sep, 0)
    case None =>
      assert !OccursAt(s, sep, n);
      assert s[..|s|] == s;
    case Some(i) =>
      assert OccursAt(s, sep, i);
      assert n <= i;
  }

  /** With no `sep` starting before `m`, the first piece of the split keeps the first `m` characters. */
  lemma SplitHeadKeeps(s: string, sep: string, m: nat)
    requires |sep| > 0 && m <= |s|
    requires forall k :: 0 <= k < m ==> !OccursAt(s, sep, k)
    ensures m <= |Split(s, sep)[0]| && Split(s, sep)[0][..m] == s[..m]
  {
    hide Split;
    var n := match FindFrom(s, sep, 0) case Some(i) => i case None => |s|;
    assert m <= n <= |s|;
    SplitHeadAt(s, sep, n);
    var head := Split(s, sep)[0];
    assert head[..m] == s[..n][..m] == s[..m];
  }

  /** What follows the first piece of a split is empty or starts with the separator. */
  lemma SplitHeadRest(s: string, sep: string) returns (q: string)
    requires |sep| > 0
    ensures s == Split(s, sep)[0] + q
    ensures q == [] || StartsWith(q, sep)
  {
    var parts := Split(s, sep);
    SplitHeadIsPrefix(s, sep);
    hide Split;
    q := s[|parts[0]|..];
    assert s == s[..|parts[0]|] + q;
    if |parts| > 1 {
      var tail := sep + Join(parts[1..], sep);
      assert s == parts[0] + tail;
      assert q == tail;
    }
  }

  /** Splitting at the first occurrence: the text before it lacks `sep`, and the second piece is the head of the rest. */
  lemma SplitAtFirst(s: string, sep: string) returns (p: string, rest: string)
    requires |sep| > 0 && Contains(s, sep)
    ensures s == p + sep + rest && !Contains(p, sep)
    ensures Split(s, sep)[1] == Split(rest, sep)[0]
  {
    var i := FindFrom(s, sep, 0).value;
    p := s[..i];
    rest := s[i + |sep|..];
    SplitAround(s, sep, i);
    BeforeFirstIsFree(s, sep, i);
    SplitAfterFirst(p, sep, rest);
  }

  /** A prefix of a string without `pat` has none either. */
  lemma PrefixKeepsAbsence(a: string, b: string, pat: string)
    requires !Contains(a + b, pat)
    ensures !Contains(a, pat)
  {
    SliceKeepsAbsence(a + b, pat, 0, |a|);
    assert (a + b)[0..|a|] == a;
  }

  /** A string that starts with `sep` splits into an empty piece and the pieces of the rest. */
  lemma SplitLeading(sep: string, tail: string)
    requires |sep| > 0
    ensures Contains(sep + tail, sep)
    ensures Split(sep + tail, sep) == [""] + Split(tail, sep)
  {
    assert OccursAt(sep + tail, sep, 0);
    assert [] + sep + tail == sep + tail;
    SplitAfterFirst([], sep, tail);
  }

  /** Cutting `mid + sep` at the first `sep`, when `mid` lacks the first character of `sep`, gives `mid`. */
  lemma HeadBeforeSeparator(mid: string, sep: string)
    requires |sep| > 0
    requires forall i :: 0 <= i < |mid| ==> mid[i] != sep[0]
    ensures Split(mid + sep, sep)[0] == mid
  {
    var tail := mid + sep;
    forall k | 0 <= k < |mid|
      ensures !OccursAt(tail, sep, k)
    {
      assert tail[k] == mid[k];
    }
    assert OccursAt(tail, sep, |mid|);
    SplitHeadAt(tail, sep, |mid|);
    assert tail[..|mid|] == mid;
  }

  /** Splitting `sep + mid + sep`, where `mid` lacks the first character of `sep`, gives `mid` as second piece. */
  lemma BetweenSeparators(mid: string, sep: string)
    requires |sep| > 0
    requires forall i :: 0 <= i < |mid| ==> mid[i] != sep[0]
    ensures Contains(sep + mid + sep, sep)
    ensures Split(sep + mid + sep, sep)[1] == mid
  {
    var tail := mid + sep;
    assert sep + mid + sep == sep + tail;
    SplitLeading(sep, tail);
    HeadBeforeSeparator(mid, sep);
    assert Split(sep + tail, sep)[1] == Split(tail, sep)[0];
  }

  /** Splitting at a known first occurrence peels off the text in front of it. */
  lemma SplitAfterFirst(a: string, sep: string, b: string)
    requires |sep| > 0
    requires FindFrom(a + sep + b, sep, 0) == Some(|a|)
    ensures Split(a + sep + b, sep) == [a] + Split(b, sep)
  {
    var s := a + sep + b;
    assert s[..|a|] == a;
    assert s[|a| + |sep|..] == b;
  }
  /** When `p` lacks the first character of `sep`, the first `sep` of `p + sep + rest` is the one right after `p`. */
  lemma SplitPastFree(p: string, sep: string, rest: string)
    requires |sep| > 0
    requires forall i :: 0 <= i < |p| ==> p[i] != sep[0]
    ensures Contains(p + sep + rest, sep)
    ensures Split(p + sep + rest, sep) == [p] + Split(rest, sep)
  {
    var s := p + sep + rest;
    forall k | 0 <= k < |p|
      ensures !OccursAt(s, sep, k)
    {
      assert s[k] == p[k];
    }
    assert OccursAt(s, sep, |p|);
    FirstAt(s, sep, |p|);
    SplitAfterFirst(p, sep, rest);
  }


  /**
    Joining pieces that do not contain `sep` and splitting the result again
    gives the pieces back (`s.split(sep)` undoes `sep.join(parts)`).
   */
  lemma {:induction false} SplitJoinRoundTrip(parts: seq<string>, sep: string)
    requires HeadUnique(sep) && |parts| >= 1
    requires forall k :: 0 <= k < |parts| ==> !Contains(parts[k], sep)
    decreases |parts|
    ensures Split(Join(parts, sep), sep) == parts
  {
    if |parts| > 1 {
      var rest := Join(parts[1..], sep);
      SplitJoinRoundTrip(parts[1..], sep);
      FirstOccurrenceAfter(parts[0], sep, rest);
      SplitAfterFirst(parts[0], sep, rest);
    }
  }

  /** The characters Python's `str.isspace` accepts, by code point. */
  predicate IsSpace(c: char) {
    var n := c as int;
    (9 <= n <= 13) || (28 <= n <= 32) || n == 0x85 || n == 0xA0 || n == 0x1680
    || (0x2000 <= n <= 0x200A) || n == 0x2028 || n == 0x2029 || n == 0x202F
    || n == 0x205F || n == 0x3000
  }

  /** Every character of `s` from index `lo` up to `hi` is whitespace. */
  predicate SpaceBetween(s: string, lo: int, hi: int) {
    0 <= lo && hi <= |s| && forall k :: lo <= k < hi ==> IsSpace(s[k])
  }

  /** Neither the first nor the last character is whitespace. */
  predicate NoEdgeSpace(s: string) {
    |s| == 0 || (!IsSpace(s[0]) && !IsSpace(s[|s| - 1]))
  }

  /** `r` is `s` with a run of whitespace cut from the front and from the back. */
  predicate TrimmedOf(s: string, r: string) {
    exists i :: 0 <= i && i + |r| <= |s| && s[i..i + |r|] == r
      && SpaceBetween(s, 0, i) && SpaceBetween(s, i + |r|, |s|)
  }

  /** The first index at or after `i` that holds no whitespace, or the length. */
  function SkipSpace(s: string, i: nat): (k: nat)
    requires i <= |s|
    decreases |s| - i
    ensures i <= k <= |s| && SpaceBetween(s, i, k)
    ensures k < |s| ==> !IsSpace(s[k])
  {
    if i < |s| && IsSpace(s[i]) then SkipSpace(s, i + 1) else i
  }

  /** The index just past the last non-whitespace character before `j`, but no lower than `lo`. */
  function SkipSpaceBack(s: string, lo: nat, j: nat): (k: nat)
    requires lo <= j <= |s|
    decreases j
    ensures lo <= k <= j && SpaceBetween(s, k, j)
    ensures lo < k ==> !IsSpace(s[k - 1])
  {
    if lo < j && IsSpace(s[j - 1]) then SkipSpaceBack(s, lo, j - 1) else j
  }

  /** Python's `s.strip()`: whitespace removed from both ends. */
  function Strip(s: string): (r: string)
    ensures NoEdgeSpace(r)
    ensures TrimmedOf(s, r)
  {
    var a := SkipSpace(s, 0);
    var b := SkipSpaceBack(s, a, |s|);
    assert s[a..a + (b - a)] == s[a..b];
    s[a..b]
  }

  /**
    `Strip(s)` is the only string without edge whitespace that `s` becomes
    by cutting whitespace from its two ends.
   */
  lemma StripUnique(s: string, r: string)
    requires NoEdgeSpace(r) && TrimmedOf(s, r)
    ensures Strip(s) == r
  {
    var i :| 0 <= i && i + |r| <= |s| && s[i..i + |r|] == r
      && SpaceBetween(s, 0, i) && SpaceBetween(s, i + |r|, |s|);
    var a := SkipSpace(s, 0);
    var b := SkipSpaceBack(s, a, |s|);
    if |r| == 0 {
      assert SpaceBetween(s, 0, |s|);
      assert a == |s|;
    } else {
      assert s[i] == r[0] && s[i + |r| - 1] == r[|r| - 1];
      assert a == i;
      assert b == i + |r|;
    }
  }

  /** Stripping a string without edge whitespace changes nothing. */
  lemma StripClean(s: string)
    requires NoEdgeSpace(s)
    ensures Strip(s) == s
  {
    assert s[0..0 + |s|] == s && SpaceBetween(s, 0, 0) && SpaceBetween(s, |s|, |s|);
    StripUnique(s, s);
  }

  /** Python's `s.strip()` removes only whitespace, so it cannot create a substring. */
  lemma StripKeepsAbsence(s: string, pat: string)
    requires !Contains(s, pat)
    ensures !Contains(Strip(s), pat)
  {
    var a := SkipSpace(s, 0);
    SliceKeepsAbsence(s, pat, a, SkipSpaceBack(s, a, |s|));
  }

  /**
    Python's `s.replace(target, repl)` for a non-empty `target`: every occurrence,
    scanned left to right without overlap, is replaced.
   */
  function ReplaceAll(s: string, target: string, repl: string): (r: string)
    requires |target| > 0
    decreases |s|
    ensures !Contains(s, target) ==> r == s
    // the text before the first occurrence is kept, and the replacement follows it
    ensures Contains(s, target) ==> StartsWith(r, s[..FindFrom(s, target, 0).value] + repl)
  {
    match FindFrom(s, target, 0)
    case None => s
    case Some(i) =>
      var front := s[..i] + repl;
      var r := front + ReplaceAll(s[i + |target|..], target, repl);
      assert r[..|front|] == front;
      r
  }

  /** Replacing is joining the split pieces with the replacement (`repl.join(s.split(target))`). */
  lemma {:induction false} ReplaceIsJoinOfSplit(s: string, target: string, repl: string)
    requires |target| > 0
    decreases |s|
    ensures ReplaceAll(s, target, repl) == Join(Split(s, target), repl)
  {
    match FindFrom(s, target, 0)
    case None =>
    case Some(i) =>
      var rest := s[i + |target|..];
      ReplaceIsJoinOfSplit(rest, target, repl);
      var parts := Split(s, target);
      assert parts == [s[..i]] + Split(rest, target);
      assert parts[1..] == Split(rest, target);
  }

  /** Replacing the known first occurrence: the text in front of it is kept. */
  lemma ReplaceAfterFirst(a: string, target: string, b: string, repl: string)
    requires |target| > 0
    requires FindFrom(a + target + b, target, 0) == Some(|a|)
    ensures ReplaceAll(a + target + b, target, repl) == a + repl + ReplaceAll(b, target, repl)
  {
    var s := a + target + b;
    assert s[..|a|] == a;
    assert s[|a| + |target|..] == b;
  }

  /**
    Replacing by a longer string never shortens, and lengthens exactly when
    there was something to replace.
   */
  lemma {:induction false} ReplaceGrows(s: string, target: string, repl: string)
    requires 0 < |target| < |repl|
    decreases |s|
    ensures |ReplaceAll(s, target, repl)| >= |s|
    ensures |ReplaceAll(s, target, repl)| > |s| <==> Contains(s, target)
  {
    match FindFrom(s, target, 0)
    case None =>
    case Some(i) =>
      var rest := s[i + |target|..];
      ReplaceGrows(rest, target, repl);
  }

  /** The number a string of decimal digits denotes. */
  function DigitsValue(r: string): int
  {
    if |r| == 0 then 0 else DigitsValue(r[..|r| - 1]) * 10 + (r[|r| - 1] as int - 48)
  }

  /** The decimal digits of a natural number, most significant first; reading them back gives the number. */
  function Digits(n: nat): (r: string)
    decreases n
    ensures |r| >= 1
    ensures forall i :: 0 <= i < |r| ==> '0' <= r[i] <= '9'
    ensures DigitsValue(r) == n
    ensures |r| > 1 ==> r[0] != '0'
  {
    if n < 10 then [(48 + n) as char]
    else
      var front := Digits(n / 10);
      var r := front + [(48 + n % 10) as char];
      assert r[..|r| - 1] == front;
      assert |front| == 1 ==> DigitsValue(front) == front[0] as int - 48;
      r
  }

  /** A digit string without a leading zero denotes at least 1 unless it is a single digit. */
  lemma {:induction false} LeadingDigitPositive(r: string)
    requires |r| >= 1 && r[0] != '0'
    requires forall i :: 0 <= i < |r| ==> '0' <= r[i] <= '9'
    ensures DigitsValue(r) >= 1
  {
    if |r| > 1 {
      var front := r[..|r| - 1];
      LeadingDigitPositive(front);
    }
  }

  /** The digits of `n` are the only digit string without a leading zero that denotes `n`. */
  lemma {:induction false} DigitsUnique(r: string, n: nat)
    requires |r| >= 1 && (|r| > 1 ==> r[0] != '0')
    requires forall i :: 0 <= i < |r| ==> '0' <= r[i] <= '9'
    requires DigitsValue(r) == n
    decreases |r|
    ensures r == Digits(n)
  {
    if |r| > 1 {
      var front := r[..|r| - 1];
      LeadingDigitPositive(front);
      assert n / 10 == DigitsValue(front) && n % 10 == r[|r| - 1] as int - 48;
      DigitsUnique(front, n / 10);
      assert r == front + [r[|r| - 1]];
    } else {
      assert DigitsValue(r) == r[0] as int - 48;
    }
  }

  /** Python's `str(n)` for an integer: a minus sign for a negative number, then the digits of its magnitude. */
  function Decimal(n: int): (r: string)
    ensures |r| >= 1 && ' ' !in r
    ensures r[0] == '-' <==> n < 0
    ensures n >= 0 ==> DigitsValue(r) == n
    ensures n < 0 ==> DigitsValue(r[1..]) == -n
    // after the sign come only digits, and no leading zero
    ensures forall i :: (if n < 0 then 1 else 0) <= i < |r| ==> '0' <= r[i] <= '9'
    ensures n >= 0 && |r| > 1 ==> r[0] != '0'
    ensures n < 0 ==> |r| >= 2 && (|r| > 2 ==> r[1] != '0')
  {
    if n < 0 then "-" + Digits(-n) else Digits(n)
  }
}

=== FILE: tools.dfy ===
/**
  The issue collector of agent/tools.py (`get_a11y_issues`): after the
  formatter has run, the linter's JSON report is filtered for accessibility
  rules and each such message is rendered as one issue line. Any exception
  on the way collapses the result to an empty list and an empty text.

  The formatter and the linter are external programs: their outcomes are
  inputs here, already parsed.
 */
module Tools {
  import opened Wrappers
  import opened PyStrings

  /** One key of a parsed JSON object, as Python's dict access sees it. */
  datatype Field<T> = Absent | Null | Present(value: T)

  /** One entry of the linter's `messages` list. */
  datatype LintMessage = LintMessage(
    ruleId: Field<string>,
    line: Field<int>,
    column: Field<int>,
    message: Field<string>)

  /** One entry of the linter's JSON result list: one linted file. */
  datatype FileReport = FileReport(messages: Field<seq<LintMessage>>)

  /** What the linter invocation yields once its standard output is parsed. */
  datatype LintRun =
    | LintCrashed                    // launching the linter, or parsing its output, raised
    | NoOutput                       // the linter printed nothing
    | Reports(files: seq<FileReport>)

  const A11yRulePrefix := "jsx-a11y/"

  /** `msg.get("ruleId", "").startswith("jsx-a11y/")`: a missing rule id reads as "". */
  predicate IsA11y(m: LintMessage) {
    m.ruleId.Present? && StartsWith(m.ruleId.value, A11yRulePrefix)
  }

  /**
    Looking at this message raises: `.startswith` on a null rule id, or a
    missing `line`, `column` or `message` key while an accessibility message
    is being formatted.
   */
  predicate Raises(m: LintMessage) {
    m.ruleId.Null? || (IsA11y(m) && (m.line.Absent? || m.column.Absent? || m.message.Absent?))
  }

  /**
    How the rule id decides a message's fate: a missing one reads as "" and
    the message is dropped, a null one raises, any other id but a
    `jsx-a11y/` one is dropped, and an accessibility message raises exactly
    when one of the keys the issue line reads is missing.
   */
  lemma RuleIdDecides(m: LintMessage)
    ensures m.ruleId.Absent? ==> !IsA11y(m) && !Raises(m)
    ensures m.ruleId.Null? ==> Raises(m)
    ensures m.ruleId.Present? && !StartsWith(m.ruleId.value, A11yRulePrefix) ==> !IsA11y(m) && !Raises(m)
    ensures IsA11y(m) ==> (Raises(m) <==> m.line.Absent? || m.column.Absent? || m.message.Absent?)
  {
  }

  predicate NoneRaises(ms: seq<LintMessage>) {
    forall i :: 0 <= i < |ms| ==> !Raises(ms[i])
  }

  /** A JSON value inside an f-string: null prints as `None`. */
  function ShowInt(f: Field<int>): string
    requires !f.Absent?
  {
    if f.Null? then "None" else Decimal(f.value)
  }

  function ShowText(f: Field<string>): string
    requires !f.Absent?
  {
    if f.Null? then "None" else f.value
  }

  /** The issue line of one accessibility message: `line:column  error  message  ruleId`. */
  function IssueLine(m: LintMessage): (r: string)
    requires IsA11y(m) && !Raises(m)
    ensures StartsWith(r, ShowInt(m.line) + ":" + ShowInt(m.column) + "  error  ")
    ensures |r| >= |m.ruleId.value| + 2 && r[|r| - |m.ruleId.value| - 2..] == "  " + m.ruleId.value
  {
    var head := ShowInt(m.line) + ":" + ShowInt(m.column) + "  error  ";
    var tail := "  " + m.ruleId.value;
    var r := head + ShowText(m.message) + tail;
    assert r[..|head|] == head;
    assert r[|r| - |tail|..] == tail;
    r
  }

  /** The issue lines of a message list that raises nowhere, in message order. */
  function Kept(ms: seq<LintMessage>): (r: seq<string>)
    requires NoneRaises(ms)
    ensures |r| <= |ms|
  {
    if |ms| == 0 then []
    else
      var m := ms[|ms| - 1];
      Kept(ms[..|ms| - 1]) + if IsA11y(m) then [IssueLine(m)] else []
  }

  /**
    The messages of the first file of the report, or None when reading them
    raises (a null `messages`). A missing key reads as the empty list.
   */
  function FirstFileMessages(files: seq<FileReport>): (r: Option<seq<LintMessage>>)
    ensures r.None? <==> |files| > 0 && files[0].messages.Null?
    ensures r.Some? && r.value != [] ==> |files| > 0 && files[0].messages == Present(r.value)
  {
    if |files| == 0 then Some([])
    else match files[0].messages
      case Absent => Some([])
      case Null => None
      case Present(ms) => Some(ms)
  }

  /**
    The pair `(issues, formatted_file)` that `get_a11y_issues` returns, given
    the formatter's output (None when reading the file or formatting raised)
    and the linter's outcome.
   */
  function A11yIssues(formatted: Option<string>, lint: LintRun): (r: (seq<string>, string))
    ensures formatted.None? || lint.LintCrashed? ==> r == ([], "")
    ensures r.0 != [] ==> formatted.Some? && r.1 == formatted.value
    // a report whose first file's messages can be read: its issues when none raises, else `([], "")`
    ensures formatted.Some? && lint.Reports? && FirstFileMessages(lint.files).Some? ==>
      var ms := FirstFileMessages(lint.files).value;
      r == if NoneRaises(ms) then (Kept(ms), formatted.value) else ([], "")
    // a null `messages` list raises when it is iterated
    ensures formatted.Some? && lint.Reports? && FirstFileMessages(lint.files).None? ==> r == ([], "")
  {
    if formatted.None? || lint.LintCrashed? then ([], "")
    else if lint.NoOutput? then ([], formatted.value)
    else match FirstFileMessages(lint.files)
      case None => ([], "")
      case Some(ms) => if NoneRaises(ms) then (Kept(ms), formatted.value) else ([], "")
  }

  /**
    `get_a11y_issues`: walks the first file's messages in order, appending one
    issue line per accessibility message, and gives up with `([], "")` at the
    first message that raises.
   */
  method GetA11yIssues(formatted: Option<string>, lint: LintRun)
    returns (issues: seq<string>, formattedFile: string)
    ensures (issues, formattedFile) == A11yIssues(formatted, lint)
  {
    if formatted.None? || lint.LintCrashed? {
      return [], "";
    }
    formattedFile := formatted.value;
    issues := [];
    if lint.Reports? && |lint.files| > 0 {
      var messages: seq<LintMessage>;
      match lint.files[0].messages {
        case Absent => messages := [];
        case Null => return [], "";
        case Present(ms) => messages := ms;
      }
      var i := 0;
      while i < |messages|
        invariant 0 <= i <= |messages|
        invariant NoneRaises(messages[..i])
        invariant issues == Kept(messages[..i])
      {
        var msg := messages[i];
        if msg.ruleId.Null? {
          RaisingStops(messages, i);
          return [], "";
        }
        if IsA11y(msg) {
          if msg.line.Absent? || msg.column.Absent? || msg.message.Absent? {
            RaisingStops(messages, i);
            return [], "";
          }
          issues := issues + [IssueLine(msg)];
        }
        KeptStep(messages, i);
        i := i + 1;
      }
      assert messages[..|messages|] == messages;
    }
  }

  /** One more message that does not raise extends the issue lines by its own, if it has one. */
  lemma KeptStep(ms: seq<LintMessage>, i: nat)
    requires i < |ms| && NoneRaises(ms[..i]) && !Raises(ms[i])
    ensures NoneRaises(ms[..i + 1])
    ensures Kept(ms[..i + 1]) == Kept(ms[..i]) + if IsA11y(ms[i]) then [IssueLine(ms[i])] else []
  {
    assert ms[..i + 1][..i] == ms[..i];
  }

  /** A message that raises makes the whole list raise. */
  lemma RaisingStops(ms: seq<LintMessage>, i: nat)
    requires i < |ms| && Raises(ms[i])
    ensures !NoneRaises(ms)
  {
  }

  /** Filtering keeps the linter's order: the issues of two runs of messages are concatenated. */
  lemma {:induction false} KeptConcat(a: seq<LintMessage>, b: seq<LintMessage>)
    requires NoneRaises(a) && NoneRaises(b)
    decreases |b|
    ensures NoneRaises(a + b)
    ensures Kept(a + b) == Kept(a) + Kept(b)
  {
    if |b| == 0 {
      assert a + b == a;
    } else {
      var b' := b[..|b| - 1];
      KeptConcat(a, b');
      assert (a + b)[..|a + b| - 1] == a + b';
    }
  }

  /**
    There are never more issues than messages, and every issue is the issue
    line of some accessibility message of the list.
   */
  lemma {:induction false} KeptFromMessages(ms: seq<LintMessage>)
    requires NoneRaises(ms)
    ensures forall x :: x in Kept(ms) ==>
      exists i :: 0 <= i < |ms| && IsA11y(ms[i]) && x == IssueLine(ms[i])
  {
    if |ms| > 0 {
      var front := ms[..|ms| - 1];
      KeptFromMessages(front);
      forall x | x in Kept(ms)
        ensures exists i :: 0 <= i < |ms| && IsA11y(ms[i]) && x == IssueLine(ms[i])
      {
        if x in Kept(front) {
          var i :| 0 <= i < |front| && IsA11y(front[i]) && x == IssueLine(front[i]);
          assert ms[i] == front[i];
        } else {
          assert IsA11y(ms[|ms| - 1]) && x == IssueLine(ms[|ms| - 1]);
        }
      }
    }
  }

  /** Every accessibility message yields an issue: the filter drops nothing it should keep. */
  lemma {:induction false} KeptCoversA11y(ms: seq<LintMessage>, i: nat)
    requires NoneRaises(ms) && i < |ms| && IsA11y(ms[i])
    ensures IssueLine(ms[i]) in Kept(ms)
  {
    var front := ms[..|ms| - 1];
    if i < |ms| - 1 {
      KeptCoversA11y(front, i);
    }
  }

  /** The text after the last space of `s` (the whole of `s` when it has none). */
  function LastToken(s: string): string
  {
    if |s| == 0 || s[|s| - 1] == ' ' then "" else LastToken(s[..|s| - 1]) + [s[|s| - 1]]
  }

  lemma {:induction false} LastTokenAfterSpace(x: string, tok: string)
    requires ' ' !in tok
    ensures LastToken(x + " " + tok) == tok
  {
    var s := x + " " + tok;
    if |tok| > 0 {
      var tok' := tok[..|tok| - 1];
      LastTokenAfterSpace(x, tok');
      assert s[..|s| - 1] == x + " " + tok';
      assert tok == tok' + [tok[|tok| - 1]];
    }
  }

  /** A rule id without spaces is the last token of its issue line. */
  lemma IssueLineLastToken(m: LintMessage)
    requires IsA11y(m) && !Raises(m) && ' ' !in m.ruleId.value
    ensures LastToken(IssueLine(m)) == m.ruleId.value
  {
    var x := ShowInt(m.line) + ":" + ShowInt(m.column) + "  error  " + ShowText(m.message) + " ";
    assert IssueLine(m) == x + " " + m.ruleId.value;
    LastTokenAfterSpace(x, m.ruleId.value);
  }

  /** No linter output, or an empty result list, gives no issues but still the formatted text. */
  lemma NothingReportedKeepsFormatted(formatted: string)
    ensures A11yIssues(Some(formatted), NoOutput) == ([], formatted)
    ensures A11yIssues(Some(formatted), Reports([])) == ([], formatted)
  {
  }

  /**
    When nothing raises, the formatted text is returned, whether or not any
    issue was found; only the first file of the report is examined.
   */
  lemma SuccessKeepsFormatted(formatted: string, files: seq<FileReport>)
    requires |files| > 0 && !files[0].messages.Null?
    requires files[0].messages.Present? ==> NoneRaises(files[0].messages.value)
    ensures A11yIssues(Some(formatted), Reports(files)).1 == formatted
    ensures A11yIssues(Some(formatted), Reports(files)) == A11yIssues(Some(formatted), Reports(files[..1]))
  {
  }

  /** A single message that raises empties the whole result, issues found before it included. */
  lemma OneRaisingMessageEmptiesAll(formatted: string, files: seq<FileReport>, i: nat)
    requires |files| > 0 && files[0].messages.Present?
    requires i < |files[0].messages.value| && Raises(files[0].messages.value[i])
    ensures A11yIssues(Some(formatted), Reports(files)) == ([], "")
  {
  }
}

=== FILE: wrappers.dfy ===
/** Optional values: Python's `None` versus a present value. */
module Wrappers {

  datatype Option<+T> = None | Some(value: T)
}
